=== FILE: README.md ===
# To-do store model

A Dafny model of the JSON-document-backed to-do store behind the Flask
controllers of the CS15 final project, together with three small in-memory
structures from the desktop code: the `Task` record of `models/task.py` and
the `lex` package's `List` and `TodoLists`.

The backing file `data/data.json` holds one object whose `todo-lists` key is an
array of lists (`list_name`, `category`, `description`, `tasks`), each task
being `{task, completed}`. Lists and tasks are identified only by their
position.

Every mutating controller (`submit_list`, `delete_list`, `add_task`,
`toggle_task`, `delete_task`) reads the whole file and checks its inputs.
When the checks pass, it applies one change and writes the whole file back.
The model reads each of them as a pure function from the document to a `Response`: the document afterwards and an `Outcome` saying
whether the file was rewritten or why it was not. `submit_list` and `add_task`
check their form values before opening the file. Index checks happen after the
file is read.

The two read-only controllers never write the file. `home` is `Home.Load`,
which returns the lists to show. `view_list` is `ListController.ViewList`,
which returns a `Page`: the list's fields, or a redirect with its reason.

- `Document` (document.dfy): the parsed document. `Doc` is
  `Absent | Corrupt | Parsed(todoLists)`. Every JSON key the controllers read
  with a default is a `Field` that may be `Missing`. `Outcome` is the flash
  message or redirect each branch takes, plus `Rewritten` when the file is
  overwritten.
- `Home` (home.dfy): `home` as `Load`, and `delete_list` as `DeleteList`.
- `Create` (create.dfy): `submit_list` as `SubmitList`.
- `ListController` (listctl.dfy): `view_list`, `add_task`, `toggle_task` and
  `delete_task`.
- `Text` (text.dfy): Python's `str.strip()`, which `add_task` applies.
- `Seqs` (seqs.dfy): Python's `list.pop(i)` and `list.remove(x)`.
- `TaskModel` (task.py's `Task`), `LexList` (`lex/list.py`) and `TodoLists`
  (`lex/todoLists.py`).
- `Scenarios` (scenarios.dfy): request sequences followed end to end.
- `Options` (options.dfy): `Option`, for Python's `None`.

Form values are `Option<string>`: `None` is a field missing from the request.
Python's truthiness test `not value` is `!Filled(value)`.

Behaviour of the code that is easy to miss:
- `add_task` checks the form value for emptiness before stripping it, so a
  value of only whitespace is accepted and stored as `""`.
- `add_task` with an out-of-range list index writes nothing and reports
  nothing (`Ignored`).
- `submit_list` on a parsed document without a `todo-lists` key raises
  `KeyError` before writing (`Raised`).
- `add_task`, `toggle_task` and `delete_task` on an unparsable file report a
  read error and write nothing (`Unreadable`). `delete_list` reads it as no
  lists and so also writes nothing. `submit_list` overwrites it with a document
  holding only the new list.

## Model

| member | source | states |
|---|---|---|
| Home.Load | python/flask/controllers/home.py:11-21 | A missing file, an unparsable file and a document without `todo-lists` all load as no lists. Otherwise the stored lists load, in order. |
| Home.DeleteList | python/flask/controllers/home.py:29-47 | The file is rewritten exactly when the document parsed and `0 <= i < len`. Then list `i` is gone, earlier lists stay and later lists move down one place. Otherwise the result is `Ignored` with the document untouched, so a missing or unparsable file is never written. |
| Home.DeleteListOutOfRange | python/flask/controllers/home.py:40 | Any index outside the loaded lists leaves every document unchanged, with no rewrite. |
| Home.DeleteListThenLoad | python/flask/controllers/home.py:40-45 | Loading after deleting list `i` gives the loaded lists with the `i`-th cut out. |
| Document.ListsIn | python/flask/controllers/list.py:19 | Reading `todo-lists` with default `[]` gives the stored array, or nothing when the key is missing. |
| Document.Saved | python/flask/controllers/home.py:42-44 | The rewritten document always holds the `todo-lists` key, and it reads back as exactly the lists written. |
| Create.NewList | python/flask/controllers/create.py:24-29 | The new list carries exactly the given name, category and description (possibly null), with an empty `tasks` array. |
| Create.SubmitList | python/flask/controllers/create.py:14-58 | A missing or empty name or category gives `Invalid` with the document untouched. Whitespace names pass and the description is never checked. A document without `todo-lists` raises before any write. Otherwise the file is rewritten with one more list: the earlier lists are unchanged and in order, and the new list is last. A missing or unparsable file becomes a document holding only the new list. |
| Create.SubmitThenLoad | python/flask/controllers/create.py:39-55 | After a successful create, loading gives the previously loaded lists followed by the new list. This holds for a missing file, an unparsable file, and a parsed file holding `todo-lists`. |
| Create.SubmitThenDeleteRestores | python/flask/controllers/create.py:46-55 | Deleting the list just appended, at its position, gives back the original document. |
| ListController.ViewList | python/flask/controllers/list.py:7-36 | A missing file redirects with "no lists" and an unparsable file with a read error. A list is shown exactly when the index is in range, with "List", "Other", "" and no tasks standing in for missing keys. Any other index is "not found". |
| ListController.TasksOf | python/flask/controllers/list.py:94 | A list's tasks are its `tasks` array, or none when the key is missing. |
| ListController.AddTask | python/flask/controllers/list.py:38-74 | A missing or empty value is rejected before the file is read. A missing or unparsable file is reported and not written. The file is rewritten exactly when the document parsed and the list index is in range. Then `{stripped text, completed: false}` ends that list's tasks (created if absent), and no other list or field changes. An out-of-range index is silently ignored. |
| ListController.AddTaskStoresBlank | python/flask/controllers/list.py:41-64 | A non-empty value made only of whitespace is accepted and stored as the task `""`. |
| ListController.AddTaskThenView | python/flask/controllers/list.py:21-29 | After adding a task, the list's page shows its earlier tasks followed by the new one. |
| ListController.AddThenDeleteTaskRestores | python/flask/controllers/list.py:58-68 | Deleting the task just appended, at its position, gives back the original document when the list already had a `tasks` array. |
| ListController.FindTask | python/flask/controllers/list.py:93-95 | A task is found exactly when both indices are in range. The list index is checked first, so an out-of-range list is "list not found" whatever the task index. |
| ListController.ToggleTask | python/flask/controllers/list.py:76-110 | A missing or unparsable file is reported and not written. The file is rewritten exactly when both indices are in range. Then only that task's `completed` changes, and it is set to whether the `toggle` field was sent. Out-of-range indices report which index failed and leave the document unchanged. |
| ListController.ToggleTaskLastWins | python/flask/controllers/list.py:78-96 | Two sets of the same task equal one set to the second value: it is a set, not a flip. Repeating a set changes nothing. |
| ListController.ToggleOnThenOff | python/flask/controllers/list.py:78-96 | Checking and then unchecking a task leaves it unchecked. |
| ListController.ToggleTaskToSameValue | python/flask/controllers/list.py:96 | Setting a flag to the value it already has rewrites the same content. |
| ListController.DeleteTask | python/flask/controllers/list.py:112-143 | A missing or unparsable file is reported and not written. The file is rewritten exactly when both indices are in range. Then only that task is gone, earlier tasks stay and later tasks move down one place in order. Out-of-range indices change nothing. |
| Text.Strip | python/flask/controllers/list.py:58 | The stripped text is the input with its whitespace ends cut off: a slice of the input starting after the leading whitespace, with only whitespace outside it. It is empty exactly when the input is all whitespace, and otherwise it neither starts nor ends with whitespace. |
| Text.LStrip | python/flask/controllers/list.py:58 | Leading whitespace is dropped: the result is a suffix of the input, everything cut is whitespace, and the result does not start with whitespace. |
| Text.RStrip | python/flask/controllers/list.py:58 | Trailing whitespace is dropped: the result is a prefix of the input, everything cut is whitespace, and the result does not end with whitespace. |
| Text.StripIgnoresPadding | python/flask/controllers/list.py:58 | Whitespace added on either side does not change the stripped text. |
| Text.StripKeepsUnpadded | python/flask/controllers/list.py:58 | Text with no whitespace at either end is stored as typed. |
| Text.StripIdempotent | python/flask/controllers/list.py:58 | Stripping twice is the same as stripping once. |
| Seqs.RemoveAt | python/flask/controllers/list.py:129 | `pop(i)` removes position `i`; earlier elements stay and later ones move down one place. |
| Seqs.FirstIndex | python/lex/list.py:10 | Gives the first position holding the element, or none exactly when the element is absent. |
| Seqs.RemoveFirst | python/lex/list.py:10 | `remove` fails exactly when the element is absent. Otherwise the element is gone from its first position, and the rest keep their order. |
| Seqs.RemoveFirstCount | python/lex/list.py:10 | A successful `remove` takes exactly one copy of the element out of the multiset of elements. |
| Seqs.RemoveAtCount | python/flask/controllers/list.py:129 | `pop(i)` takes exactly one copy of the element at `i` out of the multiset of elements. |
| Seqs.RemoveFirstSplits | python/lex/todoLists.py:9 | Removing `x` from `a + [x] + b`, where `a` holds no `x`, gives `a + b`. |
| Seqs.AppendThenRemoveFirst | python/lex/list.py:6-10 | Appending an element that is not already present and then removing it restores the sequence. |
| TaskModel.NewTask | python/models/task.py:6-20 | The new task holds exactly the title, notes, date, time, category and done flag given. |
| TaskModel.NewTaskDefaults | python/models/task.py:9-13 | Built from a title alone, a task has empty notes, no date or time, category "Other" and is not done. |
| TaskModel.ToggleDone | python/models/task.py:22-24 | The done flag flips and no other field changes. |
| TaskModel.ToggleDoneTwice | python/models/task.py:22-24 | Toggling twice restores the task. |
| TaskModel.Join | python/models/task.py:33 | Joining no parts gives `""` and joining one part gives that part. |
| TaskModel.JoinAppend | python/models/task.py:33 | Joining one more part after at least one adds the separator and then that part. |
| TaskModel.DateTimeLabel | python/models/task.py:26-33 | With neither date nor time the label is `""`. With only a non-empty time it is the time. With only a date it is the formatted date. With both it is the formatted date, `" · "`, then the time. |
| TaskModel.ToggleKeepsLabel | python/models/task.py:22-33 | Toggling completion never changes the date/time label. |
| LexList.New | python/lex/list.py:2-4 | A new list has the given name and no tasks. |
| LexList.AddTask | python/lex/list.py:6-7 | The task is appended: the name and earlier tasks are kept, and the length grows by one. |
| LexList.RemoveTask | python/lex/list.py:9-10 | Fails exactly when the task is absent. Otherwise its first occurrence is removed, the rest keep their order and the name is kept. |
| LexList.AddThenRemoveTask | python/lex/list.py:6-10 | Adding a task not already there and removing it again restores the list. |
| TodoLists.New | python/lex/todoLists.py:2-3 | A new container holds no lists. |
| TodoLists.AddList | python/lex/todoLists.py:5-6 | The list is appended and earlier lists are kept in order. |
| TodoLists.RemoveList | python/lex/todoLists.py:8-9 | Fails exactly when the list is absent. Otherwise its first occurrence is removed and the rest keep their order. |
| TodoLists.GetLists | python/lex/todoLists.py:11-12 | Returns the lists held, position by position. |
| TodoLists.Adds | python/lex/todoLists.py:5-6 | The calls adding `xs` one by one, in order. |
| TodoLists.AddsInOrder | python/lex/todoLists.py:2-12 | Adding `xs` one by one to a new container makes `get_lists` return exactly `xs`, in order. |
| TodoLists.ReplayAccounts | python/lex/todoLists.py:2-12 | After any run of adds and removes that raised nothing, the lists held plus everything removed equal everything added, counted with multiplicity. |
| Scenarios.AddGroceryTask | python/flask/controllers/list.py:58-68 | Adding an unpadded task to the one-list "Groceries" document appends it, not completed, after that list's tasks. |
| Scenarios.GroceriesRun | python/flask/controllers/list.py:38-110 | Creating "Groceries", adding "Milk" and "Eggs" and checking task 0 loads as Milk done and Eggs not done. |
| Scenarios.DeleteShiftsDown | python/flask/controllers/home.py:29-47 | Creating "A" and "B" and deleting list 0 leaves "B" alone at position 0. |
| Scenarios.AddToMissingList | python/flask/controllers/list.py:63-68 | Adding to list 5 of a two-list document writes nothing and reports nothing. |

## Left out

- A file that exists but is not valid UTF-8: every controller opens the file with `encoding='utf-8'` and catches only `json.JSONDecodeError`, so the `UnicodeDecodeError` escapes and the request fails (home.py:13-17 and 33-38, create.py:46-50, list.py:16-34, 54-72, 88-108 and 121-141). `Corrupt` stands only for valid UTF-8 text that does not parse as JSON; the raising case is not modelled.
- File and JSON I/O (`os.path.exists`, `open`, `seek`, `truncate`, `json.load`, `json.dump`, `os.makedirs`) and the per-call path computation. The file is the `Doc` value, and a write is the `Rewritten` outcome.
- Flask glue: routing, `request.form`, `flash` wording, `redirect`, `render_template`, the GET handler `create_list` (it only renders a form), and app setup in `flask/app.py`.
- Flask's `<int:...>` converter only matches non-negative integers. The model accepts any `int` and keeps the code's own `0 <=` checks.
- Document shapes on which the code raises: a top-level JSON value that is not an object; list or task entries that are not objects; a `todo-lists` value that is not an array, such as `null` (`len` fails at home.py:40 and list.py:21, 63, 93 and 126, and `.append` fails at create.py:52); and a `tasks` value that is not an array, such as `null` (`setdefault` returns it and `.append` fails at list.py:64, and `len` fails at list.py:95 and 128). The model cannot represent these shapes. Names and categories are modelled as strings only; descriptions as a string or `null`. A name or category of another JSON type, such as a number, passes through `view_list`'s `.get` unchanged; no other controller reads it. Extra keys in the top-level object or in list and task objects are not represented either; the code would carry them through a rewrite unchanged. Task entries are exactly `{task, completed}` with a string `task` and a boolean `completed`. A `task` that is not a string or a `completed` that is not a boolean cannot be represented either. `view_list` passes such an entry through unchanged (list.py:29), and `toggle_task` overwrites its `completed` (list.py:96).
- Read-modify-write races between requests. The code has no concurrency to model.
- All PyQt5 UI code (screens, widgets, `main.py`, `todo_app.py`, `todo_list.py`, `lex/mainwindow.py`, `lex/addlistpanel.py`, theme). It is presentation interleaved with widget updates.
- `lex/task.py`: a bare constructor that ignores its `checked` argument, with no behaviour to state.
- `__repr__` and `__str__` of the task and list classes: they are display strings only.
- `strftime("%b %d")`: date rendering is passed to `TaskModel.DateTimeLabel` as a function parameter.
- TodoLists.GetLists: Python returns the container's own mutable list (aliasing), while the model returns a value.

=== FILE: create.dfy ===
/** The create-list controller. */
module Create {
  import opened Options
  import opened Document
  import Home

  /**
   The list `submit_list` builds from the form: exactly the given name,
   category and description (possibly `null`), and an empty `tasks` array.
   */
  function NewList(name: string, category: string, description: Option<string>): (l: TodoList)
    ensures l.name == Present(name) && l.category == Present(category)
    ensures l.description == Present(description)
    ensures l.tasks == Present([])
  {
    TodoList(Present(name), Present(category), Present(description), Present([]))
  }

  /**
   `submit_list`. Only emptiness of the name and category is checked (a name of
   spaces passes) and the description is not checked at all. A missing file is
   created holding just the new list; an unparsable file is overwritten by a
   document holding just the new list; otherwise the new list is appended.
   A parsed document without `todo-lists` makes `data["todo-lists"]` raise
   before anything is written.
   */
  function SubmitList(doc: Doc, name: Option<string>, category: Option<string>,
                      description: Option<string>): (r: Response)
    ensures !Filled(name) || !Filled(category) ==> r == Response(doc, Invalid)
    ensures Filled(name) && Filled(category) && doc == Parsed(Missing) ==> r == Response(doc, Raised)
    ensures r.outcome != Rewritten ==> r.doc == doc
    ensures r.outcome == Rewritten <==> Filled(name) && Filled(category) && doc != Parsed(Missing)
    ensures r.outcome == Rewritten ==>
              && r.doc.Parsed? && r.doc.todoLists.Present?
              && var before := Home.Load(doc);
              && var after := Home.Load(r.doc);
              && |after| == |before| + 1
              && after[..|before|] == before
              && after[|before|] == NewList(name.value, category.value, description)
    ensures r.outcome == Rewritten && (doc.Absent? || doc.Corrupt?) ==>
              Home.Load(r.doc) == [NewList(name.value, category.value, description)]
  {
    if !Filled(name) || !Filled(category) then
      Response(doc, Invalid)
    else
      var created := NewList(name.value, category.value, description);
      match doc
      case Absent => Response(Saved([created]), Rewritten)
      // the unparsable content is replaced by an empty `todo-lists`, then appended to
      case Corrupt => Response(Saved([created]), Rewritten)
      case Parsed(Missing) => Response(doc, Raised)
      case Parsed(Present(lists)) => Response(Saved(lists + [created]), Rewritten)
  }

  /** Reading back after a successful create gives the earlier lists followed by the new one. */
  lemma SubmitThenLoad(doc: Doc, name: string, category: string, description: Option<string>)
    requires name != [] && category != [] && doc != Parsed(Missing)
    ensures Home.Load(SubmitList(doc, Some(name), Some(category), description).doc)
            == Home.Load(doc) + [NewList(name, category, description)]
  {
  }

  /**
   Deleting the list just created, at the position it was appended to, brings
   back the original document whenever that document held a `todo-lists` array.
   */
  lemma SubmitThenDeleteRestores(lists: seq<TodoList>, name: string, category: string,
                                 description: Option<string>)
    requires name != [] && category != []
    ensures var created := SubmitList(Saved(lists), Some(name), Some(category), description);
            Home.DeleteList(created.doc, |lists|) == Response(Saved(lists), Rewritten)
  {
    var created := SubmitList(Saved(lists), Some(name), Some(category), description);
    var after := Home.Load(Home.DeleteList(created.doc, |lists|).doc);
    assert after == lists;
  }
}

=== FILE: document.dfy ===
/**
 The JSON document behind the Flask controllers, as an already-parsed value.

 The backing file holds one object whose key `todo-lists` is an array of lists;
 each list is an object with `list_name`, `category`, `description` and `tasks`,
 and each task an object with `task` and `completed`. The controllers read
 every key with a default (`.get(key, default)`), so each key is modelled as a
 `Field` that may be missing. Lists and tasks are identified only by position.
 */
module Document {
  import opened Options

  /** A key of a JSON object: absent, or present with a value. */
  datatype Field<+T> = Missing | Present(value: T) {

    /** `obj.get(key, default)`. */
    function GetOr(default: T): (r: T)
      ensures Present? ==> r == value
      ensures Missing? ==> r == default
    {
      match this
      case Present(v) => v
      case Missing => default
    }
  }

  /** One entry of a list's `tasks` array: `{"task": text, "completed": flag}`. */
  datatype Task = Task(text: string, completed: bool)

  /**
   One entry of `todo-lists`. `description` may hold JSON `null`: the create
   form's description is stored as read, and an absent form field reads as `None`.
   */
  datatype TodoList = TodoList(
    name: Field<string>,
    category: Field<string>,
    description: Field<Option<string>>,
    tasks: Field<seq<Task>>)

  /**
   The backing file: not there, there but not valid JSON, or a parsed top-level
   object whose `todo-lists` key may be missing. `Corrupt` is valid UTF-8 text
   that fails to parse; a file that is not valid UTF-8 makes every controller
   raise and has no value here.
   */
  datatype Doc = Absent | Corrupt | Parsed(todoLists: Field<seq<TodoList>>)

  /** What a controller did, as far as the backing file is concerned. */
  datatype Outcome =
    | Rewritten     // the whole document was serialised back over the file
    | Invalid       // a required form value was missing or empty
    | NoLists       // the file does not exist ("No lists available.")
    | Unreadable    // the file is not valid JSON ("Error reading data file.")
    | ListNotFound  // the list index is out of range
    | TaskNotFound  // the task index is out of range within an existing list
    | Ignored       // nothing done and nothing reported
    | Raised        // the handler raised an exception before writing

  /** The document after a controller has run, and what it did. */
  datatype Response = Response(doc: Doc, outcome: Outcome)

  /** Python truthiness of a form value: present and non-empty. */
  predicate Filled(v: Option<string>) {
    v.Some? && v.value != []
  }

  /** `data.get("todo-lists", [])` on a parsed document. */
  function ListsIn(doc: Doc): (r: seq<TodoList>)
    requires doc.Parsed?
    ensures doc.todoLists.Present? ==> r == doc.todoLists.value
    ensures doc.todoLists.Missing? ==> r == []
  {
    doc.todoLists.GetOr([])
  }

  /** The document `json.dump` writes back: a top-level object whose `todo-lists` key holds `lists`. */
  function Saved(lists: seq<TodoList>): (r: Doc)
    ensures r.Parsed? && r.todoLists.Present?
    ensures ListsIn(r) == lists
  {
    Parsed(Present(lists))
  }

  /** `lists` and `lists'` agree everywhere except possibly at position `i`. */
  predicate SameExceptAt<T(==)>(lists: seq<T>, lists': seq<T>, i: int) {
    && |lists'| == |lists|
    && forall k :: 0 <= k < |lists| && k != i ==> lists'[k] == lists[k]
  }
}

=== FILE: home.dfy ===
/** The home page controller: loading every list, and deleting one list by position. */
module Home {
  import opened Document
  import Seqs

  /**
   `home`: the lists to show. A missing file, a file that does not parse and a
   parsed document without `todo-lists` all read as no lists at all.
   */
  function Load(doc: Doc): (r: seq<TodoList>)
    ensures doc.Absent? || doc.Corrupt? ==> r == []
    ensures doc.Parsed? ==> r == ListsIn(doc)
  {
    match doc
    case Absent => []
    case Corrupt => []
    case Parsed(_) => ListsIn(doc)
  }

  /**
   `delete_list`: removes list `i` when `0 <= i < len(lists)` and rewrites the
   file; every later list moves down one place. Any other index, a missing file
   and an unparsable file (read as no lists) are silently ignored.
   */
  function DeleteList(doc: Doc, i: int): (r: Response)
    ensures r.outcome == Rewritten <==> doc.Parsed? && 0 <= i < |ListsIn(doc)|
    ensures r.outcome != Rewritten ==> r == Response(doc, Ignored)
    ensures r.outcome == Rewritten ==>
              && var before := Load(doc);
              && r.doc.Parsed? && r.doc.todoLists.Present?
              && var after := Load(r.doc);
              && |after| == |before| - 1
              && (forall k :: 0 <= k < i ==> after[k] == before[k])
              && (forall k :: i <= k < |after| ==> after[k] == before[k + 1])
  {
    if doc.Parsed? && 0 <= i < |ListsIn(doc)| then
      Response(Saved(Seqs.RemoveAt(ListsIn(doc), i)), Rewritten)
    else
      Response(doc, Ignored)
  }

  /** Out-of-range positions change nothing, whatever the document. */
  lemma DeleteListOutOfRange(doc: Doc, i: int)
    requires !(0 <= i < |Load(doc)|)
    ensures DeleteList(doc, i) == Response(doc, Ignored)
  {
  }

  /** Deleting list `i` and reading back gives the same lists without the `i`-th. */
  lemma DeleteListThenLoad(doc: Doc, i: int)
    requires 0 <= i < |Load(doc)|
    ensures Load(DeleteList(doc, i).doc) == Load(doc)[..i] + Load(doc)[i + 1..]
  {
  }
}

=== FILE: lexlist.dfy ===
/**
 The `lex` package's `List`: a name and an ordered sequence of tasks. Tasks are
 compared the way Python compares them (`==`, identity for plain objects), so
 the task type is left generic.
 */
module LexList {
  import opened Options
  import Seqs

  datatype List<T> = List(name: string, tasks: seq<T>)

  /** `List(name)`: the given name and no tasks. */
  function New<T>(name: string): (l: List<T>)
    ensures l.name == name && l.tasks == []
  {
    List(name, [])
  }

  /** `add_task`: the task goes at the end; earlier tasks and the name are kept. */
  function AddTask<T>(l: List<T>, task: T): (r: List<T>)
    ensures r.name == l.name
    ensures |r.tasks| == |l.tasks| + 1
    ensures r.tasks[..|l.tasks|] == l.tasks && r.tasks[|l.tasks|] == task
  {
    l.(tasks := l.tasks + [task])
  }

  /**
   `remove_task`: `None` stands for the `ValueError` raised when the task is
   absent; otherwise only its first occurrence is gone and the rest keep their order.
   */
  function RemoveTask<T(==)>(l: List<T>, task: T): (r: Option<List<T>>)
    ensures r.None? <==> task !in l.tasks
    ensures r.Some? ==> r.value.name == l.name
    ensures r.Some? ==> exists k :: 0 <= k < |l.tasks| && l.tasks[k] == task && task !in l.tasks[..k] &&
                                    r.value.tasks == l.tasks[..k] + l.tasks[k + 1..]
  {
    match Seqs.RemoveFirst(l.tasks, task)
    case None => None
    case Some(rest) =>
      var k := Seqs.FirstIndex(l.tasks, task).value;
      assert rest == rest[..k] + rest[k..];
      Some(l.(tasks := rest))
  }

  /** Adding a task that was not there and then removing it gives back the same list. */
  lemma AddThenRemoveTask<T>(l: List<T>, task: T)
    requires task !in l.tasks
    ensures RemoveTask(AddTask(l, task), task) == Some(l)
  {
    Seqs.AppendThenRemoveFirst(l.tasks, task);
  }
}

=== FILE: listctl.dfy ===
/**
 The single-list controller: viewing one list, and adding, setting and deleting
 its tasks. Every mutation is addressed by positions and is applied only when
 all of them are in range; otherwise the file is left as it was.
 */
module ListController {
  import opened Options
  import opened Document
  import Text
  import Seqs

  /** The fields `view_list` renders, after its defaults are applied. */
  datatype ListView = ListView(
    index: int,
    name: string,
    category: string,
    description: Option<string>,
    tasks: seq<Task>)

  /** `view_list`: either the page for one list or a redirect with its reason. */
  datatype Page = Shown(view: ListView) | Redirected(reason: Outcome)

  /** The tasks of list `i`, reading a missing `tasks` key as `[]`. */
  function TasksOf(l: TodoList): (r: seq<Task>)
    ensures l.tasks.Present? ==> r == l.tasks.value
    ensures l.tasks.Missing? ==> r == []
  {
    l.tasks.GetOr([])
  }

  /**
   `view_list`: an in-range position shows that list, with "List", "Other", ""
   and no tasks standing in for missing keys; any other position is not found.
   */
  function ViewList(doc: Doc, i: int): (p: Page)
    ensures doc.Absent? ==> p == Redirected(NoLists)
    ensures doc.Corrupt? ==> p == Redirected(Unreadable)
    ensures p.Shown? <==> doc.Parsed? && 0 <= i < |ListsIn(doc)|
    ensures doc.Parsed? && !(0 <= i < |ListsIn(doc)|) ==> p == Redirected(ListNotFound)
    ensures p.Shown? ==>
              && var l := ListsIn(doc)[i];
              && p.view.index == i
              && (l.name.Present? ==> p.view.name == l.name.value)
              && (l.name.Missing? ==> p.view.name == "List")
              && (l.category.Present? ==> p.view.category == l.category.value)
              && (l.category.Missing? ==> p.view.category == "Other")
              && (l.description.Present? ==> p.view.description == l.description.value)
              && (l.description.Missing? ==> p.view.description == Some(""))
              && p.view.tasks == TasksOf(l)
  {
    match doc
    case Absent => Redirected(NoLists)
    case Corrupt => Redirected(Unreadable)
    case Parsed(_) =>
      var lists := ListsIn(doc);
      if 0 <= i < |lists| then
        var l := lists[i];
        Shown(ListView(i, l.name.GetOr("List"), l.category.GetOr("Other"),
                       l.description.GetOr(Some("")), TasksOf(l)))
      else
        Redirected(ListNotFound)
  }

  /**
   `add_task`: the form value must be present and non-empty before anything is
   read; it is stripped only afterwards, so a value of spaces is stored as "".
   The new task `{text, completed: false}` goes at the end of list `i`
   (creating its `tasks` key if needed); an out-of-range `i` is silently ignored.
   */
  function AddTask(doc: Doc, i: int, text: Option<string>): (r: Response)
    ensures !Filled(text) ==> r == Response(doc, Invalid)
    ensures Filled(text) && doc.Absent? ==> r == Response(doc, NoLists)
    ensures Filled(text) && doc.Corrupt? ==> r == Response(doc, Unreadable)
    ensures r.outcome != Rewritten ==> r.doc == doc
    ensures r.outcome == Rewritten <==> Filled(text) && doc.Parsed? && 0 <= i < |ListsIn(doc)|
    ensures Filled(text) && doc.Parsed? && !(0 <= i < |ListsIn(doc)|) ==> r == Response(doc, Ignored)
    ensures r.outcome == Rewritten ==>
              && var before := ListsIn(doc);
              && r.doc.Parsed? && r.doc.todoLists.Present?
              && var after := ListsIn(r.doc);
              && SameExceptAt(before, after, i)
              && after[i].name == before[i].name
              && after[i].category == before[i].category
              && after[i].description == before[i].description
              && after[i].tasks.Present?
              && after[i].tasks.value == TasksOf(before[i]) + [Task(Text.Strip(text.value), false)]
  {
    if !Filled(text) then
      Response(doc, Invalid)
    else
      match doc
      case Absent => Response(doc, NoLists)
      case Corrupt => Response(doc, Unreadable)
      case Parsed(_) =>
        var lists := ListsIn(doc);
        var task := Task(Text.Strip(text.value), false);
        if 0 <= i < |lists| then
          var l := lists[i].(tasks := Present(TasksOf(lists[i]) + [task]));
          Response(Saved(lists[i := l]), Rewritten)
        else
          Response(doc, Ignored)
  }

  /** Where `toggle_task` and `delete_task` stop: at the task, or at the first index out of range. */
  datatype Lookup = Found | Missed(reason: Outcome)

  /** Looks up task `j` of list `i`, checking the list index before the task index. */
  function FindTask(doc: Doc, i: int, j: int): (f: Lookup)
    requires doc.Parsed?
    ensures f.Found? <==> 0 <= i < |ListsIn(doc)| && 0 <= j < |TasksOf(ListsIn(doc)[i])|
    ensures f == Missed(ListNotFound) <==> !(0 <= i < |ListsIn(doc)|)
    ensures f.Found? || f == Missed(ListNotFound) || f == Missed(TaskNotFound)
  {
    var lists := ListsIn(doc);
    if !(0 <= i < |lists|) then Missed(ListNotFound)
    else if !(0 <= j < |TasksOf(lists[i])|) then Missed(TaskNotFound)
    else Found
  }

  /**
   `toggle_task`: sets task `j` of list `i` to completed exactly when the
   `toggle` form field is present (a set, not a flip). Nothing else changes;
   an out-of-range position is reported and nothing is written.
   */
  function ToggleTask(doc: Doc, i: int, j: int, toggle: Option<string>): (r: Response)
    ensures doc.Absent? ==> r == Response(doc, NoLists)
    ensures doc.Corrupt? ==> r == Response(doc, Unreadable)
    ensures r.outcome != Rewritten ==> r.doc == doc
    ensures doc.Parsed? ==> (r.outcome == Rewritten <==> FindTask(doc, i, j).Found?)
    ensures doc.Parsed? && FindTask(doc, i, j).Missed? ==> r.outcome == FindTask(doc, i, j).reason
    ensures r.outcome == Rewritten ==>
              && var before := ListsIn(doc);
              && r.doc.Parsed? && r.doc.todoLists.Present?
              && var after := ListsIn(r.doc);
              && SameExceptAt(before, after, i)
              && after[i] == before[i].(tasks := after[i].tasks)
              && after[i].tasks.Present?
              && SameExceptAt(TasksOf(before[i]), after[i].tasks.value, j)
              && after[i].tasks.value[j].text == TasksOf(before[i])[j].text
              && after[i].tasks.value[j].completed == toggle.Some?
  {
    match doc
    case Absent => Response(doc, NoLists)
    case Corrupt => Response(doc, Unreadable)
    case Parsed(_) =>
      var found := FindTask(doc, i, j);
      if found.Found? then
        var lists := ListsIn(doc);
        var tasks := TasksOf(lists[i]);
        var l := lists[i].(tasks := Present(tasks[j := tasks[j].(completed := toggle.Some?)]));
        Response(Saved(lists[i := l]), Rewritten)
      else
        Response(doc, found.reason)
  }

  /**
   `delete_task`: removes task `j` of list `i`; later tasks move down one place
   and keep their order. An out-of-range position is reported and nothing is written.
   */
  function DeleteTask(doc: Doc, i: int, j: int): (r: Response)
    ensures doc.Absent? ==> r == Response(doc, NoLists)
    ensures doc.Corrupt? ==> r == Response(doc, Unreadable)
    ensures r.outcome != Rewritten ==> r.doc == doc
    ensures doc.Parsed? ==> (r.outcome == Rewritten <==> FindTask(doc, i, j).Found?)
    ensures doc.Parsed? && FindTask(doc, i, j).Missed? ==> r.outcome == FindTask(doc, i, j).reason
    ensures r.outcome == Rewritten ==>
              && var before := ListsIn(doc);
              && r.doc.Parsed? && r.doc.todoLists.Present?
              && var after := ListsIn(r.doc);
              && SameExceptAt(before, after, i)
              && after[i] == before[i].(tasks := after[i].tasks)
              && after[i].tasks.Present?
              && var oldTasks := TasksOf(before[i]);
              && var newTasks := after[i].tasks.value;
              && |newTasks| == |oldTasks| - 1
              && (forall k :: 0 <= k < j ==> newTasks[k] == oldTasks[k])
              && (forall k :: j <= k < |newTasks| ==> newTasks[k] == oldTasks[k + 1])
  {
    match doc
    case Absent => Response(doc, NoLists)
    case Corrupt => Response(doc, Unreadable)
    case Parsed(_) =>
      var found := FindTask(doc, i, j);
      if found.Found? then
        var lists := ListsIn(doc);
        var l := lists[i].(tasks := Present(Seqs.RemoveAt(TasksOf(lists[i]), j)));
        Response(Saved(lists[i := l]), Rewritten)
      else
        Response(doc, found.reason)
  }

  /** A form value of nothing but whitespace passes the emptiness check and is stored as "". */
  lemma AddTaskStoresBlank(lists: seq<TodoList>, i: int, text: string)
    requires 0 <= i < |lists| && text != [] && Text.AllSpace(text)
    ensures var r := AddTask(Saved(lists), i, Some(text));
            && r.outcome == Rewritten
            && var tasks := ListsIn(r.doc)[i].tasks.value;
            && tasks[|tasks| - 1] == Task("", false)
  {
  }

  /** After adding a task, the list's page shows the old tasks followed by the new one. */
  lemma AddTaskThenView(doc: Doc, i: int, text: string)
    requires doc.Parsed? && 0 <= i < |ListsIn(doc)| && text != []
    ensures var p := ViewList(AddTask(doc, i, Some(text)).doc, i);
            && p.Shown?
            && p.view.tasks == TasksOf(ListsIn(doc)[i]) + [Task(Text.Strip(text), false)]
  {
  }

  /**
   Deleting the task just added, at the position it was appended to, brings
   back the original document when the list already had a `tasks` array.
   */
  lemma AddThenDeleteTaskRestores(lists: seq<TodoList>, i: int, text: string)
    requires 0 <= i < |lists| && lists[i].tasks.Present? && text != []
    ensures var added := AddTask(Saved(lists), i, Some(text));
            DeleteTask(added.doc, i, |lists[i].tasks.value|) == Response(Saved(lists), Rewritten)
  {
    var added := AddTask(Saved(lists), i, Some(text));
    var tasks := lists[i].tasks.value;
    var deleted := DeleteTask(added.doc, i, |tasks|);
    var after := ListsIn(deleted.doc);
    assert after[i].tasks.value == tasks;
    assert after[i] == lists[i];
    assert after == lists;
  }

  /**
   Setting the flag twice at the same position is the same as setting it once,
   to the second value: the later set wins, and repeating a set changes nothing.
   */
  lemma ToggleTaskLastWins(doc: Doc, i: int, j: int, first: Option<string>, second: Option<string>)
    ensures ToggleTask(ToggleTask(doc, i, j, first).doc, i, j, second) == ToggleTask(doc, i, j, second)
  {
    if doc.Parsed? && FindTask(doc, i, j).Found? {
      var once := ToggleTask(doc, i, j, first).doc;
      var twice := ToggleTask(once, i, j, second).doc;
      var direct := ToggleTask(doc, i, j, second).doc;
      assert FindTask(once, i, j).Found?;
      assert ListsIn(twice)[i].tasks.value == ListsIn(direct)[i].tasks.value;
      assert ListsIn(twice)[i] == ListsIn(direct)[i];
      assert ListsIn(twice) == ListsIn(direct);
    }
  }

  /** Checking and then unchecking a task leaves it unchecked. */
  lemma ToggleOnThenOff(doc: Doc, i: int, j: int)
    requires doc.Parsed? && FindTask(doc, i, j).Found?
    ensures var r := ToggleTask(ToggleTask(doc, i, j, Some("on")).doc, i, j, None);
            && r.outcome == Rewritten
            && !ListsIn(r.doc)[i].tasks.value[j].completed
  {
    ToggleTaskLastWins(doc, i, j, Some("on"), None);
  }

  /** Setting a flag to the value it already has rewrites the file with the same content. */
  lemma ToggleTaskToSameValue(lists: seq<TodoList>, i: int, j: int, toggle: Option<string>)
    requires 0 <= i < |lists| && lists[i].tasks.Present?
    requires 0 <= j < |lists[i].tasks.value| && lists[i].tasks.value[j].completed == toggle.Some?
    ensures ToggleTask(Saved(lists), i, j, toggle) == Response(Saved(lists), Rewritten)
  {
    var after := ListsIn(ToggleTask(Saved(lists), i, j, toggle).doc);
    assert after[i].tasks.value == lists[i].tasks.value;
    assert after == lists;
  }
}

=== FILE: options.dfy ===
/** Python's `None` versus a present value. */
module Options {

  datatype Option<+T> = None | Some(value: T)
}

=== FILE: scenarios.dfy ===
/** Request sequences against the store, followed end to end. */
module Scenarios {
  import opened Options
  import opened Document
  import Text
  import Home
  import Create
  import ListController

  /** The "Groceries" list holding `tasks`. */
  function Groceries(tasks: seq<Task>): (l: TodoList) {
    TodoList(Present("Groceries"), Present("Shopping"), Present(Some("")), Present(tasks))
  }

  /** A step of `GroceriesRun`: adding an unpadded task to the "Groceries" document. */
  lemma AddGroceryTask(tasks: seq<Task>, text: string)
    requires text != [] && Text.Unpadded(text)
    ensures ListController.AddTask(Saved([Groceries(tasks)]), 0, Some(text))
            == Response(Saved([Groceries(tasks + [Task(text, false)])]), Rewritten)
  {
    Text.StripKeepsUnpadded(text);
    var r := ListController.AddTask(Saved([Groceries(tasks)]), 0, Some(text));
    assert ListsIn(r.doc)[0] == Groceries(tasks + [Task(text, false)]);
    assert ListsIn(r.doc) == [ListsIn(r.doc)[0]];
  }

  /** A step of `GroceriesRun`: creating "Groceries" when there is no file yet. */
  lemma CreateGroceries()
    ensures Create.SubmitList(Absent, Some("Groceries"), Some("Shopping"), Some(""))
            == Response(Saved([Groceries([])]), Rewritten)
  {
  }

  /** A step of `GroceriesRun`: checking "Milk", the first task. */
  lemma CheckMilk()
    ensures ListController.ToggleTask(Saved([Groceries([Task("Milk", false), Task("Eggs", false)])]), 0, 0, Some("on"))
            == Response(Saved([Groceries([Task("Milk", true), Task("Eggs", false)])]), Rewritten)
  {
    var r := ListController.ToggleTask(Saved([Groceries([Task("Milk", false), Task("Eggs", false)])]), 0, 0, Some("on"));
    assert ListsIn(r.doc)[0].tasks.value == [Task("Milk", true), Task("Eggs", false)];
    assert ListsIn(r.doc) == [ListsIn(r.doc)[0]];
  }

  /**
   Creating "Groceries", adding "Milk" and "Eggs" and checking the first task
   leaves one list whose tasks are Milk (done) and Eggs (not done).
   */
  lemma GroceriesRun()
    ensures
      var d1 := Create.SubmitList(Absent, Some("Groceries"), Some("Shopping"), Some("")).doc;
      var d2 := ListController.AddTask(d1, 0, Some("Milk")).doc;
      var d3 := ListController.AddTask(d2, 0, Some("Eggs")).doc;
      var d4 := ListController.ToggleTask(d3, 0, 0, Some("on")).doc;
      Home.Load(d4) == [Groceries([Task("Milk", true), Task("Eggs", false)])]
  {
    var milk := [Task("Milk", false)];
    var both := [Task("Milk", false), Task("Eggs", false)];
    CreateGroceries();
    var d1 := Saved([Groceries([])]);
    AddGroceryTask([], "Milk");
    assert [] + [Task("Milk", false)] == milk;
    var d2 := Saved([Groceries(milk)]);
    assert ListController.AddTask(d1, 0, Some("Milk")).doc == d2;
    AddGroceryTask(milk, "Eggs");
    assert milk + [Task("Eggs", false)] == both;
    var d3 := Saved([Groceries(both)]);
    assert ListController.AddTask(d2, 0, Some("Eggs")).doc == d3;
    CheckMilk();
  }

  /** Creating "A" then "B" and deleting list 0 leaves "B" alone at position 0. */
  lemma DeleteShiftsDown()
    ensures
      var d1 := Create.SubmitList(Absent, Some("A"), Some("Other"), Some("")).doc;
      var d2 := Create.SubmitList(d1, Some("B"), Some("Other"), Some("")).doc;
      var d3 := Home.DeleteList(d2, 0).doc;
      Home.Load(d3) == [Create.NewList("B", "Other", Some(""))]
  {
    var d1 := Create.SubmitList(Absent, Some("A"), Some("Other"), Some("")).doc;
    var d2 := Create.SubmitList(d1, Some("B"), Some("Other"), Some("")).doc;
    assert Home.Load(d2) == [Create.NewList("A", "Other", Some("")), Create.NewList("B", "Other", Some(""))];
  }

  /** Adding a task to list 5 of a two-list store writes nothing and reports nothing. */
  lemma AddToMissingList(a: TodoList, b: TodoList)
    ensures ListController.AddTask(Saved([a, b]), 5, Some("x")) == Response(Saved([a, b]), Ignored)
  {
  }
}

=== FILE: seqs.dfy ===
/**
 Python list operations the model relies on: `list.pop(i)` (remove at an index,
 shifting the rest down) and `list.remove(x)` (remove the first occurrence, or
 raise `ValueError` when there is none).
 */
module Seqs {
  import opened Options

  /** `s.pop(i)`: the element at `i` is gone, earlier ones stay, later ones move down by one. */
  function RemoveAt<T>(s: seq<T>, i: int): (r: seq<T>)
    requires 0 <= i < |s|
    ensures |r| == |s| - 1
    ensures forall k :: 0 <= k < i ==> r[k] == s[k]
    ensures forall k :: i <= k < |r| ==> r[k] == s[k + 1]
  {
    s[..i] + s[i + 1..]
  }

  /** The position of the first occurrence of `x` in `s`, if any. */
  function FirstIndex<T(==)>(s: seq<T>, x: T): (r: Option<nat>)
    ensures r.None? <==> x !in s
    ensures r.Some? ==> r.value < |s| && s[r.value] == x && x !in s[..r.value]
  {
    if |s| == 0 then None
    else if s[0] == x then Some(0)
    else
      match FirstIndex(s[1..], x)
      case None => None
      case Some(k) =>
        assert s[..k + 1] == [s[0]] + s[1..][..k];
        Some(k + 1)
  }

  /**
   `s.remove(x)`: `None` stands for the `ValueError` raised when `x` is absent;
   otherwise exactly one copy of `x` is gone, the one at its first position,
   and the elements before and after it keep their order.
   */
  function RemoveFirst<T(==)>(s: seq<T>, x: T): (r: Option<seq<T>>)
    ensures r.None? <==> x !in s
    ensures r.Some? ==> |r.value| == |s| - 1
    ensures r.Some? ==>
              && FirstIndex(s, x).Some?
              && var k := FirstIndex(s, x).value;
                 r.value[..k] == s[..k] && r.value[k..] == s[k + 1..]
  {
    match FirstIndex(s, x)
    case None => None
    case Some(k) =>
      var r := RemoveAt(s, k);
      RemoveAtSlices(s, k);
      Some(r)
  }

  /** Removing position `k` keeps the slices before and after it. */
  lemma RemoveAtSlices<T>(s: seq<T>, k: int)
    requires 0 <= k < |s|
    ensures RemoveAt(s, k)[..k] == s[..k] && RemoveAt(s, k)[k..] == s[k + 1..]
  {
    assert RemoveAt(s, k) == s[..k] + s[k + 1..];
  }

  /** Removing position `k` takes exactly one copy of `s[k]` out of the multiset. */
  lemma RemoveAtCount<T>(s: seq<T>, k: int)
    requires 0 <= k < |s|
    ensures multiset(RemoveAt(s, k)) == multiset(s) - multiset{s[k]}
  {
    assert s == s[..k] + [s[k]] + s[k + 1..];
    assert RemoveAt(s, k) == s[..k] + s[k + 1..];
  }

  /** A successful `remove` takes exactly one copy of `x` out of the multiset of elements. */
  lemma RemoveFirstCount<T>(s: seq<T>, x: T)
    requires x in s
    ensures multiset(RemoveFirst(s, x).value) == multiset(s) - multiset{x}
  {
    var k := FirstIndex(s, x).value;
    RemoveAtCount(s, k);
  }

  /** The first index of `x` in `a + [x] + b` is `|a|` when `a` holds no `x`. */
  lemma FirstIndexAfterPrefix<T>(a: seq<T>, x: T, b: seq<T>)
    requires x !in a
    ensures FirstIndex(a + [x] + b, x) == Some(|a|)
  {
    var s := a + [x] + b;
    assert s[|a|] == x;
    assert s[..|a|] == a;
  }

  /** Removing `x` from `a + [x] + b`, where `a` holds no `x`, leaves exactly `a + b`. */
  lemma RemoveFirstSplits<T>(a: seq<T>, x: T, b: seq<T>)
    requires x !in a
    ensures RemoveFirst(a + [x] + b, x) == Some(a + b)
  {
    var s := a + [x] + b;
    FirstIndexAfterPrefix(a, x, b);
    var r := RemoveFirst(s, x).value;
    assert r[..|a|] == a;
    assert r[|a|..] == b;
    assert r == r[..|a|] + r[|a|..];
  }

  /** Appending `x` and then removing it is the identity when `x` was not already there. */
  lemma AppendThenRemoveFirst<T>(s: seq<T>, x: T)
    requires x !in s
    ensures RemoveFirst(s + [x], x) == Some(s)
  {
    RemoveFirstSplits(s, x, []);
    assert s + [x] + [] == s + [x];
    assert s + [] == s;
  }
}

=== FILE: task.dfy ===
/** The desktop app's in-memory `Task` record. */
module TaskModel {
  import opened Options

  /** A `datetime` value; only the date formatter looks inside it. */
  datatype DateTime = DateTime(year: int, month: int, day: int, hour: int, minute: int)

  datatype Task = Task(
    title: string,
    notes: string,
    date: Option<DateTime>,
    time: Option<string>,
    category: string,
    isDone: bool)

  /** The separator placed between the date and the time in a label. */
  const Separator: string := " \U{B7} "

  /** `Task(title, ...)`: every argument but the title has a default. */
  function NewTask(title: string, notes: string := "", date: Option<DateTime> := None,
                   time: Option<string> := None, category: string := "Other",
                   isDone: bool := false): (t: Task)
    ensures t.title == title && t.notes == notes && t.date == date
    ensures t.time == time && t.category == category && t.isDone == isDone
  {
    Task(title, notes, date, time, category, isDone)
  }

  /** A task built from a title alone has empty notes, no date or time, category "Other" and is not done. */
  lemma NewTaskDefaults(title: string)
    ensures NewTask(title) == Task(title, "", None, None, "Other", false)
  {
  }

  /** `toggle_done`: flips the completion flag and touches nothing else. */
  function ToggleDone(t: Task): (r: Task)
    ensures r.isDone != t.isDone
    ensures r.title == t.title && r.notes == t.notes && r.date == t.date
    ensures r.time == t.time && r.category == t.category
  {
    t.(isDone := !t.isDone)
  }

  /** Toggling twice gives back the task as it was. */
  lemma ToggleDoneTwice(t: Task)
    ensures ToggleDone(ToggleDone(t)) == t
  {
  }

  /** `sep.join(parts)`. */
  function Join(parts: seq<string>, sep: string): (r: string)
    ensures |parts| == 0 ==> r == ""
    ensures |parts| == 1 ==> r == parts[0]
  {
    if |parts| == 0 then ""
    else if |parts| == 1 then parts[0]
    else parts[0] + sep + Join(parts[1..], sep)
  }

  /** Joining one more part after at least one adds the separator and then that part. */
  lemma {:induction false} JoinAppend(parts: seq<string>, x: string, sep: string)
    requires |parts| > 0
    ensures Join(parts + [x], sep) == Join(parts, sep) + sep + x
    decreases |parts|
  {
    if |parts| > 1 {
      assert (parts + [x])[1..] == parts[1..] + [x];
      JoinAppend(parts[1..], x, sep);
    } else {
      assert (parts + [x])[1..] == [x];
    }
  }

  /**
   `get_datetime_str`, with the date's `strftime("%b %d")` passed in as `format`.
   A `datetime` is always truthy; a time is used only when present and non-empty.
   */
  function DateTimeLabel(t: Task, format: DateTime -> string): (r: string)
    ensures t.date.None? && (t.time.None? || t.time.value == "") ==> r == ""
    ensures t.date.None? && t.time.Some? && t.time.value != "" ==> r == t.time.value
    ensures t.date.Some? && (t.time.None? || t.time.value == "") ==> r == format(t.date.value)
    ensures t.date.Some? && t.time.Some? && t.time.value != "" ==>
              r == format(t.date.value) + Separator + t.time.value
  {
    var parts := (if t.date.Some? then [format(t.date.value)] else [])
               + (if t.time.Some? && t.time.value != "" then [t.time.value] else []);
    if |parts| > 0 then Join(parts, Separator) else ""
  }

  /** The date/time label does not depend on completion, so toggling never changes it. */
  lemma ToggleKeepsLabel(t: Task, format: DateTime -> string)
    ensures DateTimeLabel(ToggleDone(t), format) == DateTimeLabel(t, format)
  {
  }
}

=== FILE: text.dfy ===
/**
 Python's `str.strip()` with no argument: removes leading and trailing
 characters for which `str.isspace()` holds.
 */
module Text {

  /** `str.isspace()` on one character: the Unicode whitespace set Python uses. */
  predicate IsSpace(c: char) {
    || c == ' ' || c == '\t' || c == '\n' || c == '\r' || c == '\U{0B}' || c == '\U{0C}'
    || '\U{1C}' <= c <= '\U{1F}'
    || c == '\U{85}' || c == '\U{A0}' || c == '\U{1680}'
    || '\U{2000}' <= c <= '\U{200A}'
    || c == '\U{2028}' || c == '\U{2029}' || c == '\U{202F}' || c == '\U{205F}' || c == '\U{3000}'
  }

  predicate AllSpace(s: string) {
    forall k :: 0 <= k < |s| ==> IsSpace(s[k])
  }

  /** `r` is the slice of `s` starting at `c`, and everything outside that slice is whitespace. */
  predicate TrimmedAt(s: string, c: int, r: string) {
    && 0 <= c && c + |r| <= |s|
    && r == s[c..c + |r|]
    && AllSpace(s[..c]) && AllSpace(s[c + |r|..])
  }

  /** No whitespace at either end (the shape of every stripped string). */
  predicate Unpadded(s: string) {
    s == [] || (!IsSpace(s[0]) && !IsSpace(s[|s| - 1]))
  }

  /** `s.lstrip()`: a suffix of `s`; everything dropped is whitespace and what is kept does not start with it. */
  function LStrip(s: string): (r: string)
    ensures |r| <= |s| && r == s[|s| - |r|..]
    ensures AllSpace(s[..|s| - |r|])
    ensures r == [] || !IsSpace(r[0])
  {
    if |s| > 0 && IsSpace(s[0]) then
      var r := LStrip(s[1..]);
      LStripStep(s, r);
      r
    else
      s
  }

  /** One recursive step of `LStrip`: dropping one more leading space keeps its contract. */
  lemma LStripStep(s: string, r: string)
    requires |s| > 0 && IsSpace(s[0]) && |r| <= |s| - 1
    requires r == s[1..][|s| - 1 - |r|..] && AllSpace(s[1..][..|s| - 1 - |r|])
    ensures r == s[|s| - |r|..] && AllSpace(s[..|s| - |r|])
  {
    var c := |s| - |r|;
    assert s[1..][c - 1..] == s[c..];
    forall k | 0 <= k < c
      ensures IsSpace(s[..c][k])
    {
      if k > 0 {
        assert s[..c][k] == s[1..][..c - 1][k - 1];
      }
    }
  }

  /** `s.rstrip()`: a prefix of `s`; everything dropped is whitespace and what is kept does not end with it. */
  function RStrip(s: string): (r: string)
    ensures |r| <= |s| && r == s[..|r|]
    ensures AllSpace(s[|r|..])
    ensures r == [] || !IsSpace(r[|r| - 1])
  {
    if |s| > 0 && IsSpace(s[|s| - 1]) then
      var r := RStrip(s[..|s| - 1]);
      RStripStep(s, r);
      r
    else
      s
  }

  /** One recursive step of `RStrip`: dropping one more trailing space keeps its contract. */
  lemma RStripStep(s: string, r: string)
    requires |s| > 0 && IsSpace(s[|s| - 1]) && |r| <= |s| - 1
    requires r == s[..|s| - 1][..|r|] && AllSpace(s[..|s| - 1][|r|..])
    ensures r == s[..|r|] && AllSpace(s[|r|..])
  {
    var n := |s| - 1;
    assert s[..n][..|r|] == s[..|r|];
    forall k | 0 <= k < |s| - |r|
      ensures IsSpace(s[|r|..][k])
    {
      if k < n - |r| {
        assert s[|r|..][k] == s[..n][|r|..][k];
      }
    }
  }

  /** `s.strip()`: empty exactly when `s` is all whitespace, and otherwise unpadded. */
  function Strip(s: string): (r: string)
    ensures |r| <= |s|
    ensures r == [] <==> AllSpace(s)
    ensures Unpadded(r)
    ensures TrimmedAt(s, |s| - |LStrip(s)|, r)
  {
    var l := LStrip(s);
    StripShape(s, l, RStrip(l));
    StripSlice(s, l, RStrip(l));
    RStrip(l)
  }

  /** A prefix `r` of a suffix `l` of `s` is a slice of `s`, with the cut-off ends carried over. */
  lemma StripSlice(s: string, l: string, r: string)
    requires |l| <= |s| && l == s[|s| - |l|..] && AllSpace(s[..|s| - |l|])
    requires |r| <= |l| && r == l[..|r|] && AllSpace(l[|r|..])
    ensures TrimmedAt(s, |s| - |l|, r)
  {
    var c := |s| - |l|;
    assert s[c..c + |r|] == l[..|r|];
    assert s[c + |r|..] == l[|r|..];
  }

  /** The facts behind `Strip`'s contract, from those of `LStrip` and `RStrip`. */
  lemma StripShape(s: string, l: string, r: string)
    requires l == LStrip(s) && r == RStrip(l)
    ensures |r| <= |s|
    ensures r == [] <==> AllSpace(s)
    ensures Unpadded(r)
  {
    var cut := |s| - |l|;
    assert s[cut..] == l;
    if r == [] {
      assert l[|r|..] == l;
      assert s[..cut] == s;
    } else {
      assert r[0] == l[0];
    }
    if l != [] {
      assert l[0] == s[cut];
    }
  }

  lemma {:induction false} LStripSpacePrefix(p: string, x: string)
    requires AllSpace(p)
    ensures LStrip(p + x) == LStrip(x)
    decreases |p|
  {
    if |p| > 0 {
      assert (p + x)[1..] == p[1..] + x;
      LStripSpacePrefix(p[1..], x);
    } else {
      assert p + x == x;
    }
  }

  lemma {:induction false} RStripSpaceSuffix(x: string, q: string)
    requires AllSpace(q)
    ensures RStrip(x + q) == RStrip(x)
    decreases |q|
  {
    if |q| > 0 {
      assert (x + q)[..|x + q| - 1] == x + q[..|q| - 1];
      RStripSpaceSuffix(x, q[..|q| - 1]);
    } else {
      assert x + q == x;
    }
  }

  lemma {:induction false} LStripAppend(x: string, q: string)
    requires !AllSpace(x)
    ensures LStrip(x + q) == LStrip(x) + q
    decreases |x|
  {
    if IsSpace(x[0]) {
      assert (x + q)[1..] == x[1..] + q;
      LStripAppend(x[1..], q);
    }
  }

  /** Whitespace padding on either side does not change the stripped result. */
  lemma StripIgnoresPadding(p: string, s: string, q: string)
    requires AllSpace(p) && AllSpace(q)
    ensures Strip(p + s + q) == Strip(s)
  {
    if AllSpace(s) {
      AllSpaceConcat(p, s, q);
    } else {
      var t := p + s + q;
      assert t == p + (s + q);
      LStripSpacePrefix(p, s + q);
      LStripAppend(s, q);
      assert LStrip(t) == LStrip(s) + q;
      RStripSpaceSuffix(LStrip(s), q);
      assert Strip(t) == RStrip(LStrip(t));
    }
  }

  lemma AllSpaceConcat(p: string, s: string, q: string)
    requires AllSpace(p) && AllSpace(s) && AllSpace(q)
    ensures AllSpace(p + s + q)
  {
    var t := p + s + q;
    forall k | 0 <= k < |t|
      ensures IsSpace(t[k])
    {
      if k < |p| {
        assert t[k] == p[k];
      } else if k < |p| + |s| {
        assert t[k] == s[k - |p|];
      } else {
        assert t[k] == q[k - |p| - |s|];
      }
    }
  }

  /** A string with no whitespace at either end is left as it is. */
  lemma StripKeepsUnpadded(s: string)
    requires Unpadded(s)
    ensures Strip(s) == s
  {
  }

  /** Stripping twice is stripping once. */
  lemma StripIdempotent(s: string)
    ensures Strip(Strip(s)) == Strip(s)
  {
    StripKeepsUnpadded(Strip(s));
  }
}

=== FILE: todolists.dfy ===
/**
 The `lex` package's `TodoLists`: an ordered container of lists with append,
 remove-first-occurrence and read-out. The element type is left generic, as
 lists are compared with Python's `==`.
 */
module TodoLists {
  import opened Options
  import Seqs

  datatype TodoLists<L> = TodoLists(lists: seq<L>)

  /** `TodoLists()`: holds nothing. */
  function New<L>(): (c: TodoLists<L>)
    ensures GetLists(c) == []
  {
    TodoLists([])
  }

  /** `add_list`: the list goes at the end and earlier lists are kept in order. */
  function AddList<L>(c: TodoLists<L>, l: L): (r: TodoLists<L>)
    ensures |r.lists| == |c.lists| + 1
    ensures r.lists[..|c.lists|] == c.lists && r.lists[|c.lists|] == l
  {
    TodoLists(c.lists + [l])
  }

  /**
   `remove_list`: `None` stands for the `ValueError` raised when the list is
   absent; otherwise exactly its first occurrence is gone and the rest keep their order.
   */
  function RemoveList<L(==)>(c: TodoLists<L>, l: L): (r: Option<TodoLists<L>>)
    ensures r.None? <==> l !in c.lists
    ensures r.Some? ==> exists k :: 0 <= k < |c.lists| && c.lists[k] == l && l !in c.lists[..k] &&
                                    r.value.lists == c.lists[..k] + c.lists[k + 1..]
  {
    match Seqs.RemoveFirst(c.lists, l)
    case None => None
    case Some(rest) =>
      var k := Seqs.FirstIndex(c.lists, l).value;
      assert rest == rest[..k] + rest[k..];
      Some(TodoLists(rest))
  }

  /** `get_lists`: the lists currently held, in order. */
  function GetLists<L>(c: TodoLists<L>): (r: seq<L>)
    ensures |r| == |c.lists| && forall k :: 0 <= k < |r| ==> r[k] == c.lists[k]
  {
    c.lists
  }

  /** One call on the container. */
  datatype Op<L> = Add(l: L) | Remove(l: L)

  /** The container after `ops` in order, or `None` once a removal raised. */
  function Replay<L(==)>(c: TodoLists<L>, ops: seq<Op<L>>): (r: Option<TodoLists<L>>)
  {
    if |ops| == 0 then Some(c)
    else
      match Replay(c, ops[..|ops| - 1])
      case None => None
      case Some(prev) =>
        match ops[|ops| - 1]
        case Add(l) => Some(AddList(prev, l))
        case Remove(l) => RemoveList(prev, l)
  }

  /** Everything `ops` adds, and everything it removes. */
  function Added<L>(ops: seq<Op<L>>): (m: multiset<L>) {
    if |ops| == 0 then multiset{}
    else Added(ops[..|ops| - 1]) + (if ops[|ops| - 1].Add? then multiset{ops[|ops| - 1].l} else multiset{})
  }

  function Removed<L>(ops: seq<Op<L>>): (m: multiset<L>) {
    if |ops| == 0 then multiset{}
    else Removed(ops[..|ops| - 1]) + (if ops[|ops| - 1].Remove? then multiset{ops[|ops| - 1].l} else multiset{})
  }

  function Adds<L>(xs: seq<L>): (ops: seq<Op<L>>)
    ensures |ops| == |xs| && forall k :: 0 <= k < |xs| ==> ops[k] == Add(xs[k])
  {
    if |xs| == 0 then [] else Adds(xs[..|xs| - 1]) + [Add(xs[|xs| - 1])]
  }

  /** Adding `xs` one by one to a new container makes `get_lists` return exactly `xs`. */
  lemma {:induction false} AddsInOrder<L>(xs: seq<L>)
    ensures Replay(New(), Adds(xs)) == Some(TodoLists(xs))
  {
    if |xs| > 0 {
      var ops := Adds(xs);
      assert ops[..|ops| - 1] == Adds(xs[..|xs| - 1]);
      AddsInOrder(xs[..|xs| - 1]);
      assert xs[..|xs| - 1] + [xs[|xs| - 1]] == xs;
    }
  }

  /**
   After any run of calls that raised nothing, `get_lists` holds every added
   list that was not later removed, counted with multiplicity.
   */
  lemma {:induction false} ReplayAccounts<L>(ops: seq<Op<L>>)
    requires Replay(New(), ops).Some?
    ensures multiset(GetLists(Replay(New(), ops).value)) + Removed(ops) == Added(ops)
  {
    if |ops| > 0 {
      var init := ops[..|ops| - 1];
      ReplayAccounts(init);
      var prev := Replay(New(), init).value;
      match ops[|ops| - 1]
      case Add(l) =>
      case Remove(l) =>
        Seqs.RemoveFirstCount(prev.lists, l);
        assert l in multiset(prev.lists);
    }
  }
}
